=== FILE: README.md ===
# Counekt core logic in Dafny

This project models the small pieces of stateful logic in the Counekt web
application (ideas/organisations with a token bank and referendum-based
governance), and proves properties about them:

- **Deposit-amount field** (`DepositInput`, `deposit_input.dfy`). This is
  the ERC-360 structure page's keypress filter and its normaliser
  `formatDepositAmountInput`. The normaliser does three things:
  - puts `0` before a leading separator;
  - collapses the leading zero run to one `0`;
  - drops that `0` before a digit 1-9.

  The proofs show that the normaliser is idempotent. Its fixed points are
  exactly the "normalized" texts. It keeps every character after the
  leading zero run, so it keeps every separator. Together with the filter,
  the field never holds more than one separator.
- **Bank ledger** (`Ledger`, `bank.dfy`). A bank has balance rows
  (`TokenAmount`) keyed by token address, handled by `register_token`,
  `add_value` and `subtract_value`. It also has four timestamp-ordered
  relationships of exchange records, and their union `transactions`.
- **Referendum counters** (`Governance`, `referendum.dfy`). This covers the
  status column, the column defaults of a new Referendum and Proposal, the
  derived counts `proposal_amount` and `amount_implemented`, and the counter
  relation that the column comments document.
- **Idea membership** (`Membership`, `idea.dfy`). This covers the
  constructor's member wiring, `add_member`, `remove_member`, the two-phase
  `delete`, and `identifier`. Each user's `ideas` list is a map entry. The
  database deletes that `delete` issues are returned as a sequence of
  events.

`Wrappers` (`wrappers.dfy`) holds the `Option`/`Result` types. A Python
exception becomes a `Failure` value.

### Where the model follows intent rather than the code

`Bank.register_token`, `Bank.add_value` and `Bank.transactions` cannot run
as written:

- `app/models/idea/bank.py:28` passes the address positionally to the
  keyword-only model constructor.
- `app/models/idea/bank.py:29` and `:33` filter on a column `address`, but
  the column is `token_address` (`app/models/idea/bank.py:48`).
- `app/models/idea/bank.py:33` applies `+=` to a query object, not to a row.
- `app/models/idea/bank.py:40` passes four selects to `union_all` that
  have different column counts. `ExternalTokenReceipt` has five columns,
  while the internal and transfer tables have seven. The database rejects
  such a union. Even a valid union would return positional columns, not
  typed exchange records.

The model follows the evident intent: rows are looked up by token address,
a new row carries its token address with value 0, and `add_value` adjusts
the row it found. An unregistered address is the error `NotRegistered`. `transactions` is the
multiset of the four relationships' records, kept as typed records.

### Idea construction

The `Group` class is not part of this model. Its constructor's effect on
the roster is a parameter of `Membership.NewIdea`. `Idea.__init__` builds
the group from `members` and then appends every member once more
(`app/models/idea/idea.py:27-29`). `Membership.NewIdeaListsMembersTwice`
proves the consequence: if the Group keeps the list it is given, every
member ends up on the roster twice.

## Model

| member | source | states |
|---|---|---|
| DepositInput.PrefixZero | app/static/js/erc360/structure.js:37-39 | a text beginning with `,` or `.` gains one leading `0`; the result never starts with a separator, and the part after the zero run and the separator count are unchanged |
| DepositInput.CollapseLeadingZeros | app/static/js/erc360/structure.js:41 | `/^0+/ -> '0'`: a non-empty leading zero run becomes exactly one zero, a text without one is kept; the rest of the text and its separators are unchanged |
| DepositInput.DropZeroBeforeNonZeroDigit | app/static/js/erc360/structure.js:41 | `/^0(?=[1-9])/ -> ''`: the leading zero goes exactly when it is a single zero followed by a digit 1-9; the rest of the text is unchanged |
| DepositInput.Format | app/static/js/erc360/structure.js:35-42 | the normalised text never starts with a separator, never starts with `00`, never has `0` followed by a digit 1-9 at the front, keeps everything after the leading zero run and so every separator, and keeps a leading zero exactly when the input had a zero run or a leading separator and no digit 1-9 follows |
| DepositInput.FormatFixedPoints | app/static/js/erc360/structure.js:35-42 | formatting leaves a text unchanged if and only if the text is normalized (no leading separator, at most one leading zero, no zero before a digit 1-9) |
| DepositInput.FormatIdempotent | app/static/js/erc360/structure.js:44-46 | formatting twice is formatting once, so re-running it on every blur and input event is stable |
| DepositInput.EffectiveKey | app/static/js/erc360/structure.js:17 | the key is the key code when it is non-zero and the char code otherwise |
| DepositInput.OnKeyPress | app/static/js/erc360/structure.js:16-33 | digit keys 48-57 are accepted; `,` (44) and `.` (46) are accepted exactly when the text has no separator; every other key is rejected; the field is blurred exactly on Enter (13) |
| DepositInput.TypeKey | app/static/js/erc360/structure.js:16-46 | the key is the key code, or the char code when the key code is 0; after an accepted key the field holds the formatted edited text (the typed character replacing the selection): normalized, with the edited text's rest after the leading zero run, and with a leading zero exactly when the edited text had a zero run or a leading separator and no digit 1-9 follows; after Enter, the formatted old text, in the same terms; any other refused key, including a second separator, leaves the text unchanged |
| DepositInput.TypeKeyKeepsOneSeparator | app/static/js/erc360/structure.js:16-46 | if the text has at most one separator, then after a key press (an accepted character replacing the selection, then formatting) it still has at most one |
| Ledger.NewTokenAmount | app/models/idea/bank.py:45-50 | a new balance row has the given token address, value 0 (the column default) and no sender |
| Ledger.FindTokenFindsRegistered | app/models/idea/bank.py:29 | the lookup finds a row exactly when some row holds the token address |
| Ledger.Balance | app/models/idea/bank.py:29-33 | a token has a balance exactly when some balance row holds its address |
| Ledger.BalanceIsRowValue | app/models/idea/bank.py:29-33 | with one row per address, the balance of a token is the value of its row |
| Ledger.FindToken | app/models/idea/bank.py:29 | the lookup returns the position of the first row with the token address, or nothing when no row has it |
| Ledger.RegisterToken | app/models/idea/bank.py:27-30 | a registered address leaves the bank unchanged; a new address gets exactly one row, with balance 0; no other balance changes; one row per address is kept; the exchange records are untouched |
| Ledger.RegisterTokenIdempotent | app/models/idea/bank.py:27-30 | registering the same address twice is the same as registering it once |
| Ledger.AddValue | app/models/idea/bank.py:32-33 | it succeeds exactly when the address is registered, otherwise the error is `NotRegistered`; the address's balance rises by exactly the value, with no lower bound, and every other balance is unchanged |
| Ledger.SubtractValue | app/models/idea/bank.py:35-36 | it succeeds exactly when the address is registered, otherwise the error is `NotRegistered`; the balance falls by exactly the value and no other balance changes; one row per address is kept and the exchange records are untouched |
| Ledger.SubtractUndoesAdd | app/models/idea/bank.py:32-36 | subtracting a value just added gives back the bank exactly |
| Ledger.AddValuesSum | app/models/idea/bank.py:32-36 | on a registered address, any run of adjustments succeeds and leaves the balance at the starting balance plus the sum of the deltas |
| Ledger.AddValuesKeepsOthers | app/models/idea/bank.py:32-36 | a run of adjustments on one address leaves the balance of every other address unchanged |
| Ledger.Transactions | app/models/idea/bank.py:38-40 | the union holds exactly the records of the four relationships, each as many times as it occurs there, and its length is the sum of their lengths |
| Ledger.InsertByTimestamp | app/models/idea/bank.py:16-19 | a new row in a timestamp-ordered relationship keeps the list ordered, and the list gains exactly that row |
| Ledger.JoinIfFits | app/models/idea/bank.py:16-19 | a record joins the list for one relationship, once, exactly when its foreign key points at the bank in that role, and no other list changes; the lists stay ordered and filtered, and the transactions gain that record once or not at all and nothing else |
| Ledger.Record | app/models/idea/bank.py:16-19 | a new exchange record joins, once each, exactly the relationships whose foreign key points at the bank, and every other list keeps its records; every list stays ordered and filtered by its foreign key, and a ledger with one row per token keeps that; the transactions gain that record once per list it joined (twice for an internal exchange from the bank to itself) and nothing else |
| Governance.StatusCode | app/models/idea/referendum.py:10 | every status is stored as 0, 1 or 2 |
| Governance.StatusOfCode | app/models/idea/referendum.py:10 | a column value names a status exactly when it is 0, 1 or 2, and that status is stored as the same value |
| Governance.StatusCodeRoundTrip | app/models/idea/referendum.py:10 | reading back a stored status gives the same status |
| Governance.NewProposal | app/models/idea/referendum.py:34-40 | a new proposal is not implemented and carries the given index, function name and encoded arguments |
| Governance.NewReferendum | app/models/idea/referendum.py:6-14 | a new referendum is issued (status 0), has cast and in-favour counts of 0, and has no proposals or votes |
| Governance.CountImplemented | app/models/idea/referendum.py:27-29 | the implemented count is at most the list length; it equals the length exactly when every proposal is implemented, and is 0 exactly when none is |
| Governance.ProposalAmount | app/models/idea/referendum.py:23-25 | `proposal_amount` counts the attached proposals; it is never below `amount_implemented`, and equals it exactly when every attached proposal is implemented |
| Governance.AmountImplemented | app/models/idea/referendum.py:27-29 | `amount_implemented` never exceeds `proposal_amount`, and equals it exactly when every attached proposal is implemented |
| Governance.CountImplementedIsFilterSize | app/models/idea/referendum.py:27-29 | the implemented count is the size of the set of positions of implemented proposals, the rows that `filter_by(implemented=True)` selects |
| Governance.AttachProposal | app/models/idea/referendum.py:19-29 | attaching a proposal appends it after the existing proposals, which keep their order; `proposal_amount` rises by one, and `amount_implemented` by one exactly when the proposal is implemented; clock, status, vote counters and votes are unchanged |
| Governance.NewReferendumWellFormed | app/models/idea/referendum.py:12-14 | a new referendum satisfies `0 <= in_favor_amount <= cast_amount <= viable_amount` exactly when its viable amount is non-negative |
| Membership.NewIdea | app/models/idea/idea.py:23-30 | construction fails exactly when `members` is missing; otherwise the roster is the Group's roster followed by every supplied member, in order; the Idea is not yet persisted |
| Membership.AddMembers | app/models/idea/idea.py:28-29 | the constructor's loop appends the users to the roster in order |
| Membership.NewIdeaListsMembersTwice | app/models/idea/idea.py:27-29 | if the Group keeps the list it is given, every member is on the new roster exactly twice as often as in the supplied list |
| Membership.AddMember | app/models/idea/idea.py:32-33 | the roster grows by one, the existing entries are unchanged, and the user is last |
| Membership.RemoveFirst | app/models/idea/idea.py:35-36 | `list.remove` drops exactly one copy of the value, the first: entries before it keep their positions, and entries after it move up by one |
| Membership.RemoveMember | app/models/idea/idea.py:35-36 | it succeeds exactly when the user is on the roster, otherwise the error is `NotAMember`; on success the first occurrence is removed and exactly one copy of the user leaves the roster |
| Membership.RemoveUndoesAdd | app/models/idea/idea.py:32-36 | adding a non-member and then removing them gives back the Idea |
| Membership.Detach | app/models/idea/idea.py:39-40 | the detach loop changes only the lists, never the set of users; when it fails, the error names a roster member who is on the roster more often than the member lists the Idea |
| Membership.CanDetachStep | app/models/idea/idea.py:39-40 | after one turn of the loop, the rest of the roster can be served exactly when the whole roster could |
| Membership.DetachSucceedsIff | app/models/idea/idea.py:39-40 | the detach loop succeeds if and only if no user is on the roster more often than that user lists the Idea |
| Membership.DetachEffect | app/models/idea/idea.py:39-40 | after the loop, each user lists the Idea fewer times by exactly the number of times the user is on the roster; all other entries stay; users off the roster keep their lists unchanged |
| Membership.DbDeletes | app/models/idea/idea.py:41-43 | for a persisted Idea, `session.delete` is called twice, on the Group and then on the Idea; for an unpersisted Idea it is not called |
| Membership.Delete | app/models/idea/idea.py:38-43 | delete fails before issuing any delete exactly when some member's list lacks the Idea; on success the members' lists are detached as above, deletes are issued exactly when the Idea is persisted, and `session.delete` is called on the Group before the Idea |
| Membership.DeleteUnlistsEveryMember | app/models/idea/idea.py:38-40 | when every member lists the Idea as often as the member is on the roster, delete succeeds and no member lists the Idea afterwards |
| Membership.DeleteWithoutMembers | app/models/idea/idea.py:38-43 | deleting an Idea with an empty roster always succeeds and leaves every user's list unchanged |
| Membership.Identifier | app/models/idea/idea.py:49-51 | the identifier of an Idea is its handle |

## Left out

- Ledger.AddValue: does not model the 32-bit range of the `Integer` balance column. Balances are unbounded integers, so overflow behaviour is left to the database.
- Ledger.Record: rows with equal timestamps are placed after the existing ones. The relationship's `order_by` leaves their relative order to the database.
- Ledger.Transactions: the model concatenates the four lists in the order of `union_all`'s arguments. This order is the model's choice. SQL gives no order across the branches of a `UNION ALL`, so the contract states only which records the union holds and how often.
- Membership.Delete: on failure, Python has already removed the Idea from the lists of the members before the failing one. The model returns only the error, not that partly-detached state.
- Membership.DbDeletes: the events are the order of the `session.delete` calls. The order of the SQL `DELETE` statements at flush is chosen by the ORM from the foreign keys, and is not modelled.
- Membership.NewIdea: the `Group` constructor is not part of this model. Its resulting roster is a parameter.
- The keypress filter only sees typed keys. Pasted text reaches the field through the `input` event, which formats it but does not filter it. So the one-separator invariant is stated for key presses only.
- The DOM, jQuery event wiring, tab switching, `openDepositWindow` (wallet and network calls) and `update_structure` (AJAX) are I/O and are left out.
- ORM mechanics are left out:
  - cascade and `passive_deletes` (so deleting a Bank does not remove its rows in this model);
  - `lazy='dynamic'` queries;
  - the `admins` secondary table;
  - the `Shard` relationship;
  - `Photo`, `href`/`url_for`.

  Collections are plain sequences and maps.
- `exists_in_db` comes from `app/models/base.py`, which is not part of this model. It is the field `existsInDb`.
- No operation in the code casts a vote, moves a referendum between statuses, or sets `implemented` on a proposal. So the model has no vote-tallying or status-transition function. The counter relation is stated only as the predicate `CountersWellFormed`, because the code never enforces it.
- Nullable columns are modelled with concrete values:
  - `clock` and `viable_amount` have no default, so they are NULL until set;
  - the exchange `timestamp` can also be NULL;
  - `sender_address` is never set by the code.
- The width of the address columns (`String(42)`) is not enforced.
- `__repr__` methods are presentation only. `Vote.__repr__` refers to a nonexistent `amount`.
- `app/models/profiles/project.py` (a legacy copy of the membership pattern), `app/__init__.py` (application factory, mail and logging), `app/static/js/base.js` (UI and network) and the migration scripts are left out. They are configuration or I/O, or have no coherent contract.
- Concurrency: balance and counter updates take no locks. Their isolation is up to the database, so it is not modelled.

=== FILE: bank.dfy ===
/** The token ledger of a Bank: one balance row (`TokenAmount`) per ERC-20
    token address, the operations that register a token and adjust its
    balance, and the four timestamp-ordered lists of exchange records whose
    union is the bank's transaction history.

    The model follows the evident intent of `register_token` and
    `add_value`, not their letter: rows are looked up by their
    `token_address` column (the code filters on a column `address` that
    does not exist), a new row is built with its token address (the code
    passes it positionally to a keyword-only constructor), and `+=` adjusts
    the found row (the code applies it to the query object). */
module Ledger {
  import opened Wrappers

  /** An Ethereum address, a string column of width 42. */
  type Address = string

  type BankId = nat

  /** The current balance of one token in a bank. */
  datatype TokenAmount = TokenAmount(tokenAddress: Address, value: int, senderAddress: Option<Address>)

  /** Which kind of exchange a record is, with the columns only that kind has. */
  datatype ExchangeKind =
    | ExternalReceipt(bankId: BankId)
    | ExternalTransfer(bankId: BankId, recipientAddress: Address, recipientBankName: string)
    | InternalExchange(recipientBankId: BankId, senderBankId: BankId, byAddress: Address)

  /** A movement of value: the columns shared by every exchange record and
      the kind-specific ones. `timestamp` is the block timestamp. */
  datatype Exchange = Exchange(kind: ExchangeKind, tokenAddress: Address, value: int, timestamp: int)

  datatype Bank = Bank(
    id: BankId,
    name: string,
    tokens: seq<TokenAmount>,
    internalReceipts: seq<Exchange>,
    internalTransfers: seq<Exchange>,
    externalReceipts: seq<Exchange>,
    externalTransfers: seq<Exchange>)

  /** `add_value` on an address that was never registered finds no row and
      fails. */
  datatype BankError = NotRegistered(address: Address)

  /** A fresh balance row: value 0 is the column default, and no sender is set. */
  function NewTokenAmount(address: Address): (t: TokenAmount)
    ensures t.tokenAddress == address && t.value == 0 && t.senderAddress.None?
  {
    TokenAmount(address, 0, None)
  }

  /** `filter_by(token_address=address).first()`: the position of the first
      row for `address`, if there is one. */
  function FindToken(tokens: seq<TokenAmount>, address: Address): (i: Option<nat>)
    ensures i.Some? ==> i.value < |tokens| && tokens[i.value].tokenAddress == address
    ensures i.Some? ==> forall j :: 0 <= j < i.value ==> tokens[j].tokenAddress != address
    ensures i.None? ==> forall j :: 0 <= j < |tokens| ==> tokens[j].tokenAddress != address
  {
    if |tokens| == 0 then None
    else if tokens[0].tokenAddress == address then Some(0)
    else
      match FindToken(tokens[1..], address)
      case None => None
      case Some(k) => Some(k + 1)
  }

  /** The first-row position is determined by the addresses alone. */
  lemma FindTokenIs(tokens: seq<TokenAmount>, address: Address, i: Option<nat>)
    requires i.Some? ==> i.value < |tokens| && tokens[i.value].tokenAddress == address
    requires i.Some? ==> forall j :: 0 <= j < i.value ==> tokens[j].tokenAddress != address
    requires i.None? ==> forall j :: 0 <= j < |tokens| ==> tokens[j].tokenAddress != address
    ensures FindToken(tokens, address) == i
  {
  }

  /** Two row lists with the same addresses, position by position, answer
      every lookup alike. */
  lemma FindTokenSameAddresses(s: seq<TokenAmount>, t: seq<TokenAmount>, address: Address)
    requires |s| == |t|
    requires forall j :: 0 <= j < |s| ==> s[j].tokenAddress == t[j].tokenAddress
    ensures FindToken(s, address) == FindToken(t, address)
  {
    FindTokenIs(t, address, FindToken(s, address));
  }

  /** Some balance row holds the token. */
  predicate Registered(tokens: seq<TokenAmount>, address: Address) {
    |tokens| > 0 && (tokens[0].tokenAddress == address || Registered(tokens[1..], address))
  }

  /** The lookup finds a row exactly for the registered addresses. */
  lemma {:induction false} FindTokenFindsRegistered(tokens: seq<TokenAmount>, address: Address)
    ensures FindToken(tokens, address).Some? <==> Registered(tokens, address)
    decreases |tokens|
  {
    if |tokens| > 0 && tokens[0].tokenAddress != address {
      FindTokenFindsRegistered(tokens[1..], address);
    }
  }

  /** `filter_by(token_address=address).first().value`: the balance of a
      token, or None when no row holds the token. */
  function Balance(b: Bank, address: Address): (r: Option<int>)
    ensures r.Some? <==> Registered(b.tokens, address)
  {
    FindTokenFindsRegistered(b.tokens, address);
    match FindToken(b.tokens, address)
    case None => None
    case Some(i) => Some(b.tokens[i].value)
  }

  /** At most one row per token address: the convention `register_token`
      keeps (the table has no unique constraint for it). */
  predicate UniqueTokens(b: Bank) {
    forall i, j :: 0 <= i < j < |b.tokens| ==> b.tokens[i].tokenAddress != b.tokens[j].tokenAddress
  }

  /** With one row per address, the balance of a token is the value of its
      row, whichever position the row has. */
  lemma BalanceIsRowValue(b: Bank, j: nat)
    requires UniqueTokens(b) && j < |b.tokens|
    ensures Balance(b, b.tokens[j].tokenAddress) == Some(b.tokens[j].value)
  {
  }

  /** The exchange records of two banks agree. */
  predicate SameRecords(b: Bank, c: Bank) {
    && b.id == c.id
    && b.name == c.name
    && b.internalReceipts == c.internalReceipts
    && b.internalTransfers == c.internalTransfers
    && b.externalReceipts == c.externalReceipts
    && b.externalTransfers == c.externalTransfers
  }

  /** `register_token`: make sure a balance row exists for `address`. A
      registered address is left as it is; a new one gets exactly one row of
      value 0; no other balance changes. */
  function RegisterToken(b: Bank, address: Address): (r: Bank)
    ensures Balance(b, address).Some? ==> r == b
    ensures Balance(b, address).None? ==> Balance(r, address) == Some(0) && |r.tokens| == |b.tokens| + 1
    ensures forall a :: a != address ==> Balance(r, a) == Balance(b, a)
    ensures UniqueTokens(b) ==> UniqueTokens(r)
    ensures SameRecords(r, b)
  {
    if FindToken(b.tokens, address).None? then
      var r := b.(tokens := b.tokens + [NewTokenAmount(address)]);
      FindTokenIs(r.tokens, address, Some(|b.tokens|));
      forall a | a != address
        ensures Balance(r, a) == Balance(b, a)
      {
        FindTokenIs(r.tokens, a, FindToken(b.tokens, a));
      }
      r
    else
      b
  }

  /** Registering twice is registering once. */
  lemma RegisterTokenIdempotent(b: Bank, address: Address)
    ensures RegisterToken(RegisterToken(b, address), address) == RegisterToken(b, address)
  {
  }

  /** `add_value`: raise the balance of a registered token by `value`
      (negative values lower it, with no floor at zero); no other balance
      changes. An unregistered token is an error. */
  function AddValue(b: Bank, value: int, address: Address): (r: Result<Bank, BankError>)
    ensures r.Success? <==> Balance(b, address).Some?
    ensures r.Failure? ==> r.error == NotRegistered(address)
    ensures r.Success? ==> Balance(r.value, address) == Some(Balance(b, address).value + value)
    ensures r.Success? ==> forall a :: a != address ==> Balance(r.value, a) == Balance(b, a)
    ensures r.Success? ==> (UniqueTokens(b) ==> UniqueTokens(r.value)) && SameRecords(r.value, b)
  {
    match FindToken(b.tokens, address)
    case None => Failure(NotRegistered(address))
    case Some(i) =>
      var row := b.tokens[i];
      var c := b.(tokens := b.tokens[i := row.(value := row.value + value)]);
      forall a
        ensures FindToken(c.tokens, a) == FindToken(b.tokens, a)
      {
        FindTokenSameAddresses(c.tokens, b.tokens, a);
      }
      Success(c)
  }

  /** `subtract_value`: `add_value` of the negated amount. */
  function SubtractValue(b: Bank, value: int, address: Address): (r: Result<Bank, BankError>)
    ensures r.Success? <==> Balance(b, address).Some?
    ensures r.Failure? ==> r.error == NotRegistered(address)
    ensures r.Success? ==> Balance(r.value, address) == Some(Balance(b, address).value - value)
    ensures r.Success? ==> forall a :: a != address ==> Balance(r.value, a) == Balance(b, a)
    ensures r.Success? ==> (UniqueTokens(b) ==> UniqueTokens(r.value)) && SameRecords(r.value, b)
  {
    AddValue(b, -value, address)
  }

  /** Subtracting what was just added restores the bank exactly. */
  lemma SubtractUndoesAdd(b: Bank, value: int, address: Address)
    requires AddValue(b, value, address).Success?
    ensures SubtractValue(AddValue(b, value, address).value, value, address) == Success(b)
  {
    var i := FindToken(b.tokens, address).value;
    var c := AddValue(b, value, address).value;
    FindTokenSameAddresses(c.tokens, b.tokens, address);
    assert c.tokens[i := c.tokens[i].(value := c.tokens[i].value + -value)] == b.tokens;
  }

  function Sum(deltas: seq<int>): int {
    if |deltas| == 0 then 0 else deltas[0] + Sum(deltas[1..])
  }

  /** A run of `add_value` calls on one address, stopping at the first error. */
  function AddValues(b: Bank, deltas: seq<int>, address: Address): Result<Bank, BankError>
    decreases |deltas|
  {
    if |deltas| == 0 then Success(b)
    else
      var c :- AddValue(b, deltas[0], address);
      AddValues(c, deltas[1..], address)
  }

  /** After registering, any run of adjustments leaves the balance at the
      algebraic sum of the deltas. */
  lemma {:induction false} AddValuesSum(b: Bank, deltas: seq<int>, address: Address)
    requires Balance(b, address).Some?
    ensures AddValues(b, deltas, address).Success?
    ensures Balance(AddValues(b, deltas, address).value, address) == Some(Balance(b, address).value + Sum(deltas))
    decreases |deltas|
  {
    if |deltas| > 0 {
      AddValuesUnfold(b, deltas, address);
      AddValuesSum(AddValue(b, deltas[0], address).value, deltas[1..], address);
    }
  }

  /** A run of adjustments on one address leaves every other balance where
      it was. */
  lemma {:induction false} AddValuesKeepsOthers(b: Bank, deltas: seq<int>, address: Address, other: Address)
    requires Balance(b, address).Some? && other != address
    ensures AddValues(b, deltas, address).Success?
    ensures Balance(AddValues(b, deltas, address).value, other) == Balance(b, other)
    decreases |deltas|
  {
    if |deltas| > 0 {
      AddValuesUnfold(b, deltas, address);
      AddValuesKeepsOthers(AddValue(b, deltas[0], address).value, deltas[1..], address, other);
    }
  }

  /** A run whose first adjustment succeeds continues from its result. */
  lemma AddValuesUnfold(b: Bank, deltas: seq<int>, address: Address)
    requires |deltas| > 0 && AddValue(b, deltas[0], address).Success?
    ensures AddValues(b, deltas, address) == AddValues(AddValue(b, deltas[0], address).value, deltas[1..], address)
  {
  }

  /** `transactions`: the union of the four record lists, as `union_all`
      concatenates them. Every record of the four lists appears, as often as
      it appears there, and nothing else does. */
  function Transactions(b: Bank): (r: seq<Exchange>)
    ensures |r| == |b.internalReceipts| + |b.internalTransfers| + |b.externalReceipts| + |b.externalTransfers|
    ensures multiset(r) == multiset(b.internalReceipts) + multiset(b.internalTransfers)
                         + multiset(b.externalReceipts) + multiset(b.externalTransfers)
    ensures forall x :: x in r <==>
      x in b.internalReceipts || x in b.internalTransfers || x in b.externalReceipts || x in b.externalTransfers
  {
    b.internalReceipts + b.internalTransfers + b.externalReceipts + b.externalTransfers
  }

  predicate SortedByTimestamp(s: seq<Exchange>) {
    forall i, j :: 0 <= i < j < |s| ==> s[i].timestamp <= s[j].timestamp
  }

  /** The four relationships through which a bank sees exchange records. */
  datatype Role = ReceivedInternally | SentInternally | ReceivedExternally | SentExternally

  function RecordsIn(b: Bank, role: Role): seq<Exchange> {
    match role
    case ReceivedInternally => b.internalReceipts
    case SentInternally => b.internalTransfers
    case ReceivedExternally => b.externalReceipts
    case SentExternally => b.externalTransfers
  }

  function WithRecords(b: Bank, role: Role, s: seq<Exchange>): Bank {
    match role
    case ReceivedInternally => b.(internalReceipts := s)
    case SentInternally => b.(internalTransfers := s)
    case ReceivedExternally => b.(externalReceipts := s)
    case SentExternally => b.(externalTransfers := s)
  }

  /** The foreign key a relationship filters on points at bank `id`. */
  predicate Fits(x: Exchange, role: Role, id: BankId) {
    match role
    case ReceivedInternally => x.kind.InternalExchange? && x.kind.recipientBankId == id
    case SentInternally => x.kind.InternalExchange? && x.kind.senderBankId == id
    case ReceivedExternally => x.kind.ExternalReceipt? && x.kind.bankId == id
    case SentExternally => x.kind.ExternalTransfer? && x.kind.bankId == id
  }

  predicate RecordsWellFormed(s: seq<Exchange>, role: Role, id: BankId) {
    SortedByTimestamp(s) && forall y :: y in s ==> Fits(y, role, id)
  }

  /** Each record list is ordered by timestamp and holds only records whose
      foreign key points at this bank in the role the list is for. */
  predicate RecordListsWellFormed(b: Bank) {
    forall role :: RecordsWellFormed(RecordsIn(b, role), role, b.id)
  }

  /** The shape of a bank's ledger: one row per token, and well-formed
      record lists. */
  predicate WellFormed(b: Bank) {
    UniqueTokens(b) && RecordListsWellFormed(b)
  }

  lemma SortedCons(h: Exchange, t: seq<Exchange>)
    requires SortedByTimestamp(t)
    requires forall k :: 0 <= k < |t| ==> h.timestamp <= t[k].timestamp
    ensures SortedByTimestamp([h] + t)
  {
    var s := [h] + t;
    forall i, j | 0 <= i < j < |s| ensures s[i].timestamp <= s[j].timestamp {
      if i > 0 {
        assert s[i] == t[i - 1] && s[j] == t[j - 1];
      }
    }
  }

  /** An ordered relationship shows a new row after every row with an
      earlier or equal timestamp and before every later one. */
  function InsertByTimestamp(s: seq<Exchange>, x: Exchange): (r: seq<Exchange>)
    requires SortedByTimestamp(s)
    ensures SortedByTimestamp(r)
    ensures multiset(r) == multiset(s) + multiset{x}
    decreases |s|
  {
    if |s| == 0 || x.timestamp < s[0].timestamp then
      SortedCons(x, s);
      [x] + s
    else
      var rest := InsertByTimestamp(s[1..], x);
      forall k | 0 <= k < |rest| ensures s[0].timestamp <= rest[k].timestamp {
        assert rest[k] in multiset(rest);
        if rest[k] != x {
          assert rest[k] in multiset(s[1..]);
        }
      }
      SortedCons(s[0], rest);
      assert s == [s[0]] + s[1..];
      [s[0]] + rest
  }

  /** The inserted list holds the old rows and the new one, and nothing else. */
  lemma InsertedMembers(s: seq<Exchange>, x: Exchange)
    requires SortedByTimestamp(s)
    ensures forall y :: y in InsertByTimestamp(s, x) <==> y in s || y == x
  {
    var r := InsertByTimestamp(s, x);
    forall y ensures y in r <==> y in s || y == x {
      assert y in r <==> y in multiset(r);
    }
  }

  /** How many of a bank's four lists a record belongs to: an internal
      exchange from a bank to itself is both a receipt and a transfer. */
  function Slots(id: BankId, x: Exchange): nat {
    match x.kind
    case ExternalReceipt(bank) => if bank == id then 1 else 0
    case ExternalTransfer(bank, _, _) => if bank == id then 1 else 0
    case InternalExchange(recipient, sender, _) =>
      (if recipient == id then 1 else 0) + (if sender == id then 1 else 0)
  }

  /** A new record joins one relationship of the bank at its timestamp
      position. */
  function Join(b: Bank, role: Role, x: Exchange): (r: Bank)
    requires RecordListsWellFormed(b)
    requires Fits(x, role, b.id)
    ensures RecordListsWellFormed(r)
    ensures r.id == b.id && r.tokens == b.tokens
    ensures multiset(Transactions(r)) == multiset(Transactions(b)) + multiset{x}
    ensures forall other ::
              multiset(RecordsIn(r, other))
              == multiset(RecordsIn(b, other)) + (if other == role then multiset{x} else multiset{})
  {
    var s := RecordsIn(b, role);
    InsertedMembers(s, x);
    var r := WithRecords(b, role, InsertByTimestamp(s, x));
    assert forall other :: other != role ==> RecordsIn(r, other) == RecordsIn(b, other);
    assert RecordsIn(r, role) == InsertByTimestamp(s, x);
    assert multiset(RecordsIn(r, role)) == multiset(s) + multiset{x};
    r
  }

  /** 1 when the record belongs in the list for `role`, 0 otherwise. */
  function FitCount(x: Exchange, role: Role, id: BankId): nat {
    if Fits(x, role, id) then 1 else 0
  }

  /** A record's slots are the lists it fits, counted role by role. */
  lemma SlotsAreFits(id: BankId, x: Exchange)
    ensures Slots(id, x) == FitCount(x, ReceivedInternally, id) + FitCount(x, SentInternally, id)
                          + FitCount(x, ReceivedExternally, id) + FitCount(x, SentExternally, id)
  {
  }

  /** The record joins the relationship if its foreign key points there. */
  function JoinIfFits(b: Bank, role: Role, x: Exchange): (r: Bank)
    requires RecordListsWellFormed(b)
    ensures RecordListsWellFormed(r)
    ensures r.id == b.id && r.tokens == b.tokens
    ensures multiset(Transactions(r))[x] == multiset(Transactions(b))[x] + FitCount(x, role, b.id)
    ensures forall y :: y != x ==> multiset(Transactions(r))[y] == multiset(Transactions(b))[y]
    ensures forall other ::
              multiset(RecordsIn(r, other))
              == multiset(RecordsIn(b, other)) + (if other == role && Fits(x, role, b.id) then multiset{x} else multiset{})
  {
    if Fits(x, role, b.id) then Join(b, role, x) else b
  }

  /** Of four joins, one per role, only the one for `role` can add to the
      list for `role`, and it adds the record when the record fits there. */
  lemma JoinedOnce(b: Bank, b1: Bank, b2: Bank, b3: Bank, b4: Bank, x: Exchange, role: Role)
    requires b1.id == b.id && b2.id == b.id && b3.id == b.id
    requires multiset(RecordsIn(b1, role))
             == multiset(RecordsIn(b, role)) + (if role == ReceivedInternally && Fits(x, role, b.id) then multiset{x} else multiset{})
    requires multiset(RecordsIn(b2, role))
             == multiset(RecordsIn(b1, role)) + (if role == SentInternally && Fits(x, role, b.id) then multiset{x} else multiset{})
    requires multiset(RecordsIn(b3, role))
             == multiset(RecordsIn(b2, role)) + (if role == ReceivedExternally && Fits(x, role, b.id) then multiset{x} else multiset{})
    requires multiset(RecordsIn(b4, role))
             == multiset(RecordsIn(b3, role)) + (if role == SentExternally && Fits(x, role, b.id) then multiset{x} else multiset{})
    ensures multiset(RecordsIn(b4, role))
            == multiset(RecordsIn(b, role)) + (if Fits(x, role, b.id) then multiset{x} else multiset{})
  {
  }

  /** A new exchange record joins every list of the bank whose foreign key
      it carries, once, at its timestamp position, and no other list: the
      ledger stays well formed and its transactions gain that record once
      per list it joined, and nothing else. */
  function Record(b: Bank, x: Exchange): (r: Bank)
    requires RecordListsWellFormed(b)
    ensures RecordListsWellFormed(r)
    ensures WellFormed(b) ==> WellFormed(r)
    ensures r.id == b.id && r.tokens == b.tokens
    ensures forall role ::
              multiset(RecordsIn(r, role))
              == multiset(RecordsIn(b, role)) + (if Fits(x, role, b.id) then multiset{x} else multiset{})
    ensures multiset(Transactions(r))[x] == multiset(Transactions(b))[x] + Slots(b.id, x)
    ensures forall y :: y != x ==> multiset(Transactions(r))[y] == multiset(Transactions(b))[y]
  {
    var b1 := JoinIfFits(b, ReceivedInternally, x);
    var b2 := JoinIfFits(b1, SentInternally, x);
    var b3 := JoinIfFits(b2, ReceivedExternally, x);
    var b4 := JoinIfFits(b3, SentExternally, x);
    SlotsAreFits(b.id, x);
    forall role
      ensures multiset(RecordsIn(b4, role))
              == multiset(RecordsIn(b, role)) + (if Fits(x, role, b.id) then multiset{x} else multiset{})
    {
      JoinedOnce(b, b1, b2, b3, b4, x, role);
    }
    b4
  }
}

=== FILE: deposit_input.dfy ===
/** The deposit-amount field of the ERC-360 structure page: the keypress filter
    that decides which characters may be typed into it, and the normaliser
    `formatDepositAmountInput` that is re-applied to its text on every `blur`
    and `input` event. Texts are `seq<char>`; the DOM is left out, so the
    field's text, the caret selection and the key codes are parameters. */
module DepositInput {

  /** A decimal separator: the field takes either a comma or a dot. */
  predicate IsSeparator(c: char) {
    c == ',' || c == '.'
  }

  predicate IsNonZeroDigit(c: char) {
    '1' <= c <= '9'
  }

  predicate StartsWithSeparator(s: string) {
    |s| > 0 && IsSeparator(s[0])
  }

  predicate StartsWithNonZeroDigit(s: string) {
    |s| > 0 && IsNonZeroDigit(s[0])
  }

  /** The filter's test: the text contains a comma or a dot. */
  predicate HasSeparator(s: string) {
    ',' in s || '.' in s
  }

  /** Number of separators in a text. */
  function SeparatorCount(s: string): nat {
    multiset(s)[','] + multiset(s)['.']
  }

  /** Length of the run of '0' characters that begins a text. */
  function LeadingZeros(s: string): (n: nat)
    ensures n <= |s|
    ensures forall i :: 0 <= i < n ==> s[i] == '0'
    ensures n < |s| ==> s[n] != '0'
  {
    if |s| > 0 && s[0] == '0' then 1 + LeadingZeros(s[1..]) else 0
  }

  /** What follows the leading zero run: the part of the text that
      formatting never touches. */
  function Rest(s: string): string {
    s[LeadingZeros(s)..]
  }

  lemma LeadingZerosOfZeroPrefixed(s: string)
    requires LeadingZeros(s) == 0
    ensures LeadingZeros("0" + s) == 1
    ensures Rest("0" + s) == s
  {
    assert ("0" + s)[1..] == s;
  }

  /** A text with at most one leading zero is that zero (if any) followed by
      its rest, so such texts are equal when these two parts are. */
  lemma SplitAtRest(s: string)
    requires LeadingZeros(s) <= 1
    ensures s == (if LeadingZeros(s) == 1 then "0" + Rest(s) else Rest(s))
  {
  }

  /** Step one of the normaliser: a text beginning with a separator gets a
      '0' in front of it. */
  function PrefixZero(s: string): (r: string)
    ensures !StartsWithSeparator(r)
    ensures Rest(r) == Rest(s)
    ensures LeadingZeros(r) == if StartsWithSeparator(s) then 1 else LeadingZeros(s)
    ensures SeparatorCount(r) == SeparatorCount(s)
  {
    if StartsWithSeparator(s) then
      LeadingZerosOfZeroPrefixed(s);
      "0" + s
    else
      s
  }

  /** Step two, `replace(/^0+/, '0')`: a leading run of zeros shrinks to a
      single zero. */
  function CollapseLeadingZeros(s: string): (r: string)
    ensures Rest(r) == Rest(s)
    ensures LeadingZeros(r) == if LeadingZeros(s) > 0 then 1 else 0
    ensures SeparatorCount(r) == SeparatorCount(s)
  {
    if LeadingZeros(s) > 0 then
      assert s == s[..LeadingZeros(s)] + Rest(s);
      assert multiset(s[..LeadingZeros(s)])[','] == 0 && multiset(s[..LeadingZeros(s)])['.'] == 0;
      LeadingZerosOfZeroPrefixed(Rest(s));
      "0" + Rest(s)
    else
      s
  }

  /** Step three, `replace(/^0(?=[1-9])/, '')`: a zero standing directly
      before a digit 1-9 is dropped. */
  function DropZeroBeforeNonZeroDigit(s: string): (r: string)
    ensures Rest(r) == Rest(s)
    ensures LeadingZeros(r) ==
      if LeadingZeros(s) == 1 && StartsWithNonZeroDigit(Rest(s)) then 0 else LeadingZeros(s)
    ensures SeparatorCount(r) == SeparatorCount(s)
  {
    if |s| >= 2 && s[0] == '0' && IsNonZeroDigit(s[1]) then
      assert s == [s[0]] + s[1..];
      s[1..]
    else
      s
  }

  /** `formatDepositAmountInput`. The result never starts with a separator,
      never starts with two zeros, never has a zero before a digit 1-9, and
      keeps everything after the leading zero run, so also every separator.
      The last clause says exactly when the result keeps a leading zero. */
  function Format(s: string): (r: string)
    ensures !StartsWithSeparator(r)
    ensures |r| >= 2 ==> !(r[0] == '0' && r[1] == '0')
    ensures |r| >= 2 && r[0] == '0' ==> !IsNonZeroDigit(r[1])
    ensures Rest(r) == Rest(s)
    ensures SeparatorCount(r) == SeparatorCount(s)
    ensures LeadingZeros(r) == 1 <==>
      (LeadingZeros(s) > 0 || StartsWithSeparator(s)) && !StartsWithNonZeroDigit(Rest(s))
  {
    var r := DropZeroBeforeNonZeroDigit(CollapseLeadingZeros(PrefixZero(s)));
    SplitAtRest(r);
    r
  }

  /** The texts the normaliser leaves alone. */
  predicate Normalized(s: string) {
    && !StartsWithSeparator(s)
    && LeadingZeros(s) <= 1
    && (LeadingZeros(s) == 1 ==> !StartsWithNonZeroDigit(Rest(s)))
  }

  /** The normaliser's fixed points are exactly the normalized texts. */
  lemma FormatFixedPoints(s: string)
    ensures Format(s) == s <==> Normalized(s)
  {
    var r := Format(s);
    if Normalized(s) {
      SplitAtRest(r);
      SplitAtRest(s);
    }
  }

  /** The normaliser runs on every `blur` and `input` event, so running it
      again must change nothing. */
  lemma FormatIdempotent(s: string)
    ensures Format(Format(s)) == Format(s)
  {
    var r := Format(s);
    assert Normalized(r);
    FormatFixedPoints(r);
  }

  const EnterKey := 13
  const CommaKey := 44
  const DotKey := 46

  /** Key codes 48-57 are the digits '0'-'9'. */
  predicate IsDigitKey(key: int) {
    48 <= key <= 57
  }

  predicate IsSeparatorKey(key: int) {
    key == CommaKey || key == DotKey
  }

  /** `event.keyCode || event.charCode`: the key code, or the char code when
      the key code is absent (0). */
  function EffectiveKey(keyCode: nat, charCode: nat): (key: nat)
    ensures keyCode != 0 ==> key == keyCode
    ensures keyCode == 0 ==> key == charCode
  {
    if keyCode != 0 then keyCode else charCode
  }

  /** What the handler does with a key press: let the character through,
      and whether it takes the focus off the field. */
  datatype KeyResponse = KeyResponse(accept: bool, blur: bool)

  /** The keypress handler of the deposit-amount field. Digits fall through
      to the browser's default action; a separator passes only into a text
      that has none yet; every other key is refused, and Enter also blurs
      the field. */
  function OnKeyPress(key: int, text: string): (r: KeyResponse)
    ensures IsDigitKey(key) ==> r.accept
    ensures IsSeparatorKey(key) ==> (r.accept <==> !HasSeparator(text))
    ensures r.accept ==> IsDigitKey(key) || IsSeparatorKey(key)
    ensures r.blur <==> key == EnterKey
  {
    if key < 48 || key > 57 then
      if key == 44 || key == 46 then
        KeyResponse(!HasSeparator(text), false)
      else
        KeyResponse(false, key == 13)
    else
      KeyResponse(true, false)
  }

  /** The character an accepted key types. */
  function TypedChar(key: int): (c: char)
    requires IsDigitKey(key) || IsSeparatorKey(key)
    ensures IsSeparatorKey(key) <==> IsSeparator(c)
  {
    key as char
  }

  /** The field's text after one key press with the selection `lo..hi`.
      The handler reads the key as `keyCode || charCode`. An accepted
      character replaces the selection, and the `input` event normalises the
      text; Enter blurs the field, which normalises it too. Either way the
      result is the normalised form of the edited text: normalized, with the
      edited text's rest (the part after the leading zero run), and with a
      leading zero exactly when normalising keeps one. Every other key
      leaves the text as it was. */
  function TypeKey(text: string, keyCode: nat, charCode: nat, lo: nat, hi: nat): (r: string)
    requires lo <= hi <= |text|
    ensures var key := EffectiveKey(keyCode, charCode);
      OnKeyPress(key, text).accept ==>
        var edited := text[..lo] + [TypedChar(key)] + text[hi..];
        && Normalized(r)
        && Rest(r) == Rest(edited)
        && (LeadingZeros(r) == 1 <==>
              (LeadingZeros(edited) > 0 || StartsWithSeparator(edited)) && !StartsWithNonZeroDigit(Rest(edited)))
    ensures EffectiveKey(keyCode, charCode) == EnterKey ==>
      && Normalized(r)
      && Rest(r) == Rest(text)
      && (LeadingZeros(r) == 1 <==>
            (LeadingZeros(text) > 0 || StartsWithSeparator(text)) && !StartsWithNonZeroDigit(Rest(text)))
    ensures var key := EffectiveKey(keyCode, charCode);
      !OnKeyPress(key, text).accept && key != EnterKey ==> r == text
    ensures var key := EffectiveKey(keyCode, charCode);
      IsSeparatorKey(key) && HasSeparator(text) ==> r == text
  {
    var key := EffectiveKey(keyCode, charCode);
    var response := OnKeyPress(key, text);
    if response.accept then
      Format(text[..lo] + [TypedChar(key)] + text[hi..])
    else if response.blur then
      Format(text)
    else
      text
  }

  lemma SeparatorCountOfSplice(text: string, c: char, lo: nat, hi: nat)
    requires lo <= hi <= |text|
    ensures SeparatorCount(text[..lo] + [c] + text[hi..])
         <= SeparatorCount(text) + (if IsSeparator(c) then 1 else 0)
  {
    assert text == text[..lo] + text[lo..hi] + text[hi..];
  }

  /** The field never holds more than one separator: a key press keeps a
      text with at most one separator at most one separator. */
  lemma TypeKeyKeepsOneSeparator(text: string, keyCode: nat, charCode: nat, lo: nat, hi: nat)
    requires lo <= hi <= |text|
    requires SeparatorCount(text) <= 1
    ensures SeparatorCount(TypeKey(text, keyCode, charCode, lo, hi)) <= 1
  {
    var key := EffectiveKey(keyCode, charCode);
    if OnKeyPress(key, text).accept {
      SeparatorCountOfSplice(text, TypedChar(key), lo, hi);
    }
  }
}

=== FILE: idea.dfy ===
/** An Idea and its membership: the group roster the Idea delegates to, the
    per-user lists of Ideas a user belongs to, and the two-phase teardown of
    `delete`. The database session is left out; the deletes `delete` issues
    are returned as a sequence of events in the order they are issued. */
module Membership {
  import opened Wrappers

  type UserId = nat
  type IdeaId = nat
  type GroupId = nat

  /** The membership roster of an Idea. */
  datatype Group = Group(id: GroupId, members: seq<UserId>)

  /** `existsInDb` says whether the Idea is already persisted. */
  datatype Idea = Idea(id: IdeaId, handle: string, group: Group, existsInDb: bool)

  /** For each user, the Ideas listed on the user's `ideas`. A user missing
      from the map lists none. */
  type IdeasOf = map<UserId, seq<IdeaId>>

  datatype MembershipError =
    | MissingMembers          // the constructor's `kwargs["members"]` lookup fails
    | NotAMember(user: UserId) // `list.remove` on a roster without the user
    | NotListed(user: UserId)  // `list.remove` on a user's `ideas` without the Idea

  /** A database delete issued by `delete`. */
  datatype DbDelete = DeleteGroup(group: GroupId) | DeleteIdea(idea: IdeaId)

  /** What `delete` leaves behind: the users' idea lists after the detach
      loop, and the deletes issued after it. */
  datatype DeleteOutcome = DeleteOutcome(ideasOf: IdeasOf, deletes: seq<DbDelete>)

  /** How many times `user` lists `idea`. */
  function Listed(ideasOf: IdeasOf, user: UserId, idea: IdeaId): nat {
    if user in ideasOf then multiset(ideasOf[user])[idea] else 0
  }

  /** `Idea.__init__`: every keyword but `members` goes to the base
      initialiser; `members` must be present. The Group built from the
      members is outside this model, so what its constructor leaves in the
      roster is the parameter `groupRoster`; each member is then appended to
      the roster once more, in order. */
  function NewIdea(id: IdeaId, handle: string, groupId: GroupId, members: Option<seq<UserId>>,
                   groupRoster: seq<UserId> -> seq<UserId>): (r: Result<Idea, MembershipError>)
    ensures r.Success? <==> members.Some?
    ensures r.Failure? ==> r.error == MissingMembers
    ensures r.Success? ==>
      var roster := r.value.group.members;
      && |roster| == |groupRoster(members.value)| + |members.value|
      && roster[|groupRoster(members.value)|..] == members.value
      && multiset(roster) == multiset(groupRoster(members.value)) + multiset(members.value)
    ensures r.Success? ==> r.value.group.members == groupRoster(members.value) + members.value
    ensures r.Success? ==> r.value.id == id && r.value.handle == handle && !r.value.existsInDb
  {
    match members
    case None => Failure(MissingMembers)
    case Some(ms) =>
      var idea := Idea(id, handle, Group(groupId, groupRoster(ms)), false);
      Success(AddMembers(idea, ms))
  }

  /** The constructor's loop: `add_member` for each user, in order. */
  function AddMembers(idea: Idea, users: seq<UserId>): (r: Idea)
    ensures r.group.members == idea.group.members + users
    ensures r.id == idea.id && r.handle == idea.handle && r.group.id == idea.group.id
    ensures r.existsInDb == idea.existsInDb
    decreases |users|
  {
    if |users| == 0 then
      assert idea.group.members + users == idea.group.members;
      idea
    else
      var r := AddMembers(AddMember(idea, users[0]), users[1..]);
      assert idea.group.members + [users[0]] + users[1..] == idea.group.members + users;
      r
  }

  /** When the Group keeps the list it is constructed with, the constructor
      lists every member twice: once from the Group and once from its own
      loop. */
  lemma NewIdeaListsMembersTwice(id: IdeaId, handle: string, groupId: GroupId, members: seq<UserId>)
    ensures NewIdea(id, handle, groupId, Some(members), ms => ms).Success?
    ensures forall u :: multiset(NewIdea(id, handle, groupId, Some(members), ms => ms).value.group.members)[u]
                        == 2 * multiset(members)[u]
  {
  }

  /** `add_member`: the user goes to the end of the roster; the entries
      already there stay as they were. */
  function AddMember(idea: Idea, user: UserId): (r: Idea)
    ensures |r.group.members| == |idea.group.members| + 1
    ensures r.group.members[..|idea.group.members|] == idea.group.members
    ensures r.group.members[|idea.group.members|] == user
    ensures r.id == idea.id && r.handle == idea.handle && r.group.id == idea.group.id
    ensures r.existsInDb == idea.existsInDb
  {
    idea.(group := idea.group.(members := idea.group.members + [user]))
  }

  /** Position of the first occurrence of `x` in `s`. */
  function FirstIndex<T(==)>(s: seq<T>, x: T): (i: nat)
    requires x in s
    ensures i < |s| && s[i] == x
    ensures forall j :: 0 <= j < i ==> s[j] != x
  {
    if s[0] == x then 0 else 1 + FirstIndex(s[1..], x)
  }

  /** Python's `list.remove`: drop the first occurrence. */
  function RemoveFirst<T(==)>(s: seq<T>, x: T): (r: seq<T>)
    requires x in s
    ensures |r| == |s| - 1
    ensures multiset(r) == multiset(s) - multiset{x}
    ensures forall j :: 0 <= j < FirstIndex(s, x) ==> r[j] == s[j]
    ensures forall j :: FirstIndex(s, x) <= j < |r| ==> r[j] == s[j + 1]
  {
    var i := FirstIndex(s, x);
    assert s == s[..i] + [x] + s[i + 1..];
    s[..i] + s[i + 1..]
  }

  /** `remove_member`: one occurrence of the user leaves the roster (the
      first); a user not on the roster is an error. */
  function RemoveMember(idea: Idea, user: UserId): (r: Result<Idea, MembershipError>)
    ensures r.Success? <==> user in idea.group.members
    ensures r.Failure? ==> r.error == NotAMember(user)
    ensures r.Success? ==> multiset(r.value.group.members) == multiset(idea.group.members) - multiset{user}
    ensures r.Success? ==>
      var i := FirstIndex(idea.group.members, user);
      r.value.group.members == idea.group.members[..i] + idea.group.members[i + 1..]
    ensures r.Success? ==> r.value.id == idea.id && r.value.handle == idea.handle && r.value.existsInDb == idea.existsInDb
  {
    if user in idea.group.members then
      Success(idea.(group := idea.group.(members := RemoveFirst(idea.group.members, user))))
    else
      Failure(NotAMember(user))
  }

  /** Adding a user who was not a member and removing them again gives back
      the Idea. */
  lemma RemoveUndoesAdd(idea: Idea, user: UserId)
    requires user !in idea.group.members
    ensures RemoveMember(AddMember(idea, user), user) == Success(idea)
  {
    var s := idea.group.members;
    var t := AddMember(idea, user).group.members;
    assert t == s + [user];
    assert FirstIndex(t, user) == |s|;
    assert t[..|s|] + t[|s| + 1..] == s;
  }

  /** The detach loop of `delete`: for each roster entry in turn, remove
      the Idea once from that user's `ideas`; the first user whose list
      lacks it stops the loop with an error naming that user, who is on
      the roster more often than the user lists the Idea. Only the lists
      change; no user is added or dropped. */
  function Detach(roster: seq<UserId>, ideasOf: IdeasOf, idea: IdeaId): (r: Result<IdeasOf, MembershipError>)
    ensures r.Success? ==> r.value.Keys == ideasOf.Keys
    ensures r.Failure? ==> r.error.NotListed? && r.error.user in roster
    ensures r.Failure? ==> Listed(ideasOf, r.error.user, idea) < multiset(roster)[r.error.user]
    decreases |roster|
  {
    if |roster| == 0 then Success(ideasOf)
    else
      var u := roster[0];
      assert roster == [u] + roster[1..];
      if u in ideasOf && idea in ideasOf[u] then
        var r := Detach(roster[1..], ideasOf[u := RemoveFirst(ideasOf[u], idea)], idea);
        if r.Failure? then
          ListedAfterRemove(ideasOf, u, idea, r.error.user);
          r
        else
          r
      else
        Failure(NotListed(u))
  }

  /** The loop succeeds exactly when no user is on the roster more often
      than the user lists the Idea. */
  predicate CanDetach(roster: seq<UserId>, ideasOf: IdeasOf, idea: IdeaId) {
    forall u :: u in roster ==> multiset(roster)[u] <= Listed(ideasOf, u, idea)
  }

  /** What the loop leaves: each user lists the Idea as many times fewer as
      the user is on the roster, every other entry stays, and the lists of
      users off the roster are untouched. */
  predicate Detached(roster: seq<UserId>, before: IdeasOf, after: IdeasOf, idea: IdeaId) {
    && after.Keys == before.Keys
    && forall u :: u in before ==> DetachedUser(roster, before, after, idea, u)
  }

  /** `Detached`, for the list of one user. */
  predicate DetachedUser(roster: seq<UserId>, before: IdeasOf, after: IdeasOf, idea: IdeaId, u: UserId)
    requires u in before && u in after
  {
    && (u !in roster ==> after[u] == before[u])
    && multiset(after[u]) + Copies(idea, multiset(roster)[u]) == multiset(before[u])
  }

  /** `n` copies of an Idea. */
  function Copies(idea: IdeaId, n: nat): (m: multiset<IdeaId>)
    ensures m[idea] == n && |m| == n
  {
    multiset{}[idea := n]
  }

  /** One turn of the detach loop, for the first user of the roster,
      followed by the rest of it. */
  lemma DetachedStep(roster: seq<UserId>, before: IdeasOf, next: IdeasOf, after: IdeasOf, idea: IdeaId)
    requires |roster| > 0 && roster[0] in before && idea in before[roster[0]]
    requires next == before[roster[0] := RemoveFirst(before[roster[0]], idea)]
    requires Detached(roster[1..], next, after, idea)
    ensures Detached(roster, before, after, idea)
  {
    var u, rest := roster[0], roster[1..];
    assert roster == [u] + rest;
    forall v | v in before ensures DetachedUser(roster, before, after, idea, v) {
      assert DetachedUser(rest, next, after, idea, v);
      DetachedUserStep(u, rest, before, next, after, idea, v);
    }
  }

  lemma DetachedUserStep(u: UserId, rest: seq<UserId>, before: IdeasOf, next: IdeasOf, after: IdeasOf,
                         idea: IdeaId, v: UserId)
    requires u in before && idea in before[u]
    requires next == before[u := RemoveFirst(before[u], idea)]
    requires v in before && v in after
    requires DetachedUser(rest, next, after, idea, v)
    ensures DetachedUser([u] + rest, before, after, idea, v)
  {
    var roster := [u] + rest;
    assert multiset(roster) == multiset{u} + multiset(rest);
    if v == u {
      StepCounts(before[u], next[u], multiset(after[u]), idea, multiset(rest)[u]);
    } else {
      assert next[v] == before[v];
      assert v in roster <==> v in rest;
    }
  }

  lemma StepCounts(list: seq<IdeaId>, removed: seq<IdeaId>, left: multiset<IdeaId>, idea: IdeaId, n: nat)
    requires idea in list
    requires removed == RemoveFirst(list, idea)
    requires left + Copies(idea, n) == multiset(removed)
    ensures left + Copies(idea, n + 1) == multiset(list)
  {
    assert Copies(idea, n + 1) == Copies(idea, n) + multiset{idea};
    assert multiset(removed) + multiset{idea} == multiset(list);
  }

  /** One turn of the loop lowers the count of the user it serves by one
      and no other count. */
  lemma ListedAfterRemove(ideasOf: IdeasOf, u: UserId, idea: IdeaId, v: UserId)
    requires u in ideasOf && idea in ideasOf[u]
    ensures Listed(ideasOf[u := RemoveFirst(ideasOf[u], idea)], v, idea)
         == Listed(ideasOf, v, idea) - (if v == u then 1 else 0)
  {
  }

  /** After one turn, the rest of the roster can be served exactly when the
      whole roster could. */
  lemma CanDetachStep(u: UserId, rest: seq<UserId>, ideasOf: IdeasOf, idea: IdeaId)
    requires u in ideasOf && idea in ideasOf[u]
    ensures CanDetach([u] + rest, ideasOf, idea)
        <==> CanDetach(rest, ideasOf[u := RemoveFirst(ideasOf[u], idea)], idea)
  {
    var roster := [u] + rest;
    var next := ideasOf[u := RemoveFirst(ideasOf[u], idea)];
    assert multiset(roster) == multiset{u} + multiset(rest);
    if CanDetach(rest, next, idea) {
      forall v | v in roster ensures multiset(roster)[v] <= Listed(ideasOf, v, idea) {
        ListedAfterRemove(ideasOf, u, idea, v);
        if v != u {
          assert v in rest;
        }
      }
    }
    if CanDetach(roster, ideasOf, idea) {
      forall v | v in rest ensures multiset(rest)[v] <= Listed(next, v, idea) {
        ListedAfterRemove(ideasOf, u, idea, v);
        assert v in roster;
      }
    }
  }

  lemma {:induction false} DetachSucceedsIff(roster: seq<UserId>, ideasOf: IdeasOf, idea: IdeaId)
    ensures Detach(roster, ideasOf, idea).Success? <==> CanDetach(roster, ideasOf, idea)
    decreases |roster|
  {
    if |roster| > 0 {
      var u := roster[0];
      var rest := roster[1..];
      assert roster == [u] + rest;
      if u in ideasOf && idea in ideasOf[u] {
        DetachSucceedsIff(rest, ideasOf[u := RemoveFirst(ideasOf[u], idea)], idea);
        CanDetachStep(u, rest, ideasOf, idea);
      } else {
        assert u in roster && Listed(ideasOf, u, idea) == 0;
      }
    }
  }

  /** A successful loop served its first user and went on from there. */
  lemma DetachUnfold(roster: seq<UserId>, ideasOf: IdeasOf, idea: IdeaId)
    requires |roster| > 0 && Detach(roster, ideasOf, idea).Success?
    ensures roster[0] in ideasOf && idea in ideasOf[roster[0]]
    ensures Detach(roster, ideasOf, idea)
         == Detach(roster[1..], ideasOf[roster[0] := RemoveFirst(ideasOf[roster[0]], idea)], idea)
  {
  }

  lemma {:induction false} DetachEffect(roster: seq<UserId>, ideasOf: IdeasOf, idea: IdeaId)
    requires Detach(roster, ideasOf, idea).Success?
    ensures Detached(roster, ideasOf, Detach(roster, ideasOf, idea).value, idea)
    decreases |roster|
  {
    if |roster| > 0 {
      var u := roster[0];
      var rest := roster[1..];
      DetachUnfold(roster, ideasOf, idea);
      var next := ideasOf[u := RemoveFirst(ideasOf[u], idea)];
      DetachEffect(rest, next, idea);
      DetachedStep(roster, ideasOf, next, Detach(roster, ideasOf, idea).value, idea);
    }
  }

  /** The deletes `delete` issues once the detach loop is done: the Group,
      then the Idea, when the Idea is persisted; nothing otherwise. */
  function DbDeletes(idea: Idea): (ds: seq<DbDelete>)
    ensures idea.existsInDb ==> |ds| == 2 && ds[0] == DeleteGroup(idea.group.id) && ds[1] == DeleteIdea(idea.id)
    ensures !idea.existsInDb ==> ds == []
  {
    if idea.existsInDb then [DeleteGroup(idea.group.id), DeleteIdea(idea.id)] else []
  }

  /** `delete`: first take the Idea off every roster member's `ideas`, then,
      only for a persisted Idea, delete its Group and then the Idea itself.
      It fails, before any delete is issued, exactly when some member lists
      the Idea fewer times than the member is on the roster. */
  function Delete(idea: Idea, ideasOf: IdeasOf): (r: Result<DeleteOutcome, MembershipError>)
    ensures r.Success? <==> CanDetach(idea.group.members, ideasOf, idea.id)
    ensures r.Success? ==> Detached(idea.group.members, ideasOf, r.value.ideasOf, idea.id)
    ensures r.Success? ==> (r.value.deletes != [] <==> idea.existsInDb)
    ensures r.Success? && idea.existsInDb ==>
      r.value.deletes == [DeleteGroup(idea.group.id), DeleteIdea(idea.id)]
  {
    DetachSucceedsIff(idea.group.members, ideasOf, idea.id);
    var after :- Detach(idea.group.members, ideasOf, idea.id);
    DetachEffect(idea.group.members, ideasOf, idea.id);
    Success(DeleteOutcome(after, DbDeletes(idea)))
  }

  /** When each member lists the Idea exactly as often as the member is on
      the roster (once, for a roster without repeats), no member lists it
      after `delete`. */
  lemma DeleteUnlistsEveryMember(idea: Idea, ideasOf: IdeasOf)
    requires forall u :: u in idea.group.members ==> multiset(idea.group.members)[u] == Listed(ideasOf, u, idea.id)
    ensures Delete(idea, ideasOf).Success?
    ensures forall u :: u in idea.group.members ==> Listed(Delete(idea, ideasOf).value.ideasOf, u, idea.id) == 0
  {
  }

  /** An Idea without members is always deleted, with every user's list
      left as it was. */
  lemma DeleteWithoutMembers(idea: Idea, ideasOf: IdeasOf)
    requires idea.group.members == []
    ensures Delete(idea, ideasOf).Success?
    ensures Delete(idea, ideasOf).value.ideasOf == ideasOf
  {
    var after := Delete(idea, ideasOf).value.ideasOf;
    assert forall u :: u in ideasOf ==> after[u] == ideasOf[u];
  }

  /** `identifier`: the name an Idea is addressed by is its handle. */
  function Identifier(idea: Idea): (name: string)
    ensures name == idea.handle
  {
    idea.handle
  }
}

=== FILE: referendum.dfy ===
/** Governance records of an Idea: a Referendum with its status, its vote
    counters and its attached Proposals, and the two counts derived from the
    proposal list. */
module Governance {
  import opened Wrappers

  /** The lifecycle of a referendum, stored as the integer column `status`. */
  datatype Status = Issued | Closed | Implemented

  function StatusCode(s: Status): (code: int)
    ensures 0 <= code <= 2
  {
    match s
    case Issued => 0
    case Closed => 1
    case Implemented => 2
  }

  /** Reading the `status` column: only 0, 1 and 2 name a status. */
  function StatusOfCode(code: int): (s: Option<Status>)
    ensures s.Some? <==> 0 <= code <= 2
    ensures s.Some? ==> StatusCode(s.value) == code
  {
    if code == 0 then Some(Issued)
    else if code == 1 then Some(Closed)
    else if code == 2 then Some(Implemented)
    else None
  }

  /** Every status survives the trip through its column value. */
  lemma StatusCodeRoundTrip(s: Status)
    ensures StatusOfCode(StatusCode(s)) == Some(s)
  {
  }

  /** A deferred action: the name of the function to call and its encoded
      arguments, executed when the referendum is implemented. */
  datatype Proposal = Proposal(index: int, func: string, args: seq<bv8>, implemented: bool)

  /** One ballot, cast with a shard (an eligibility unit). */
  datatype Vote = Vote(shardId: int, inFavor: bool)

  datatype Referendum = Referendum(
    clock: int,
    status: Status,
    viableAmount: int,
    castAmount: int,
    inFavorAmount: int,
    proposals: seq<Proposal>,
    votes: seq<Vote>)

  /** A proposal as created: `implemented` takes its column default, false. */
  function NewProposal(index: int, func: string, args: seq<bv8>): (p: Proposal)
    ensures !p.implemented
    ensures p.index == index && p.func == func && p.args == args
  {
    Proposal(index, func, args, false)
  }

  /** A referendum as created: status issued and both vote counters 0 (the
      column defaults), no proposals and no votes attached yet. */
  function NewReferendum(clock: int, viableAmount: int): (r: Referendum)
    ensures r.status == Issued && StatusCode(r.status) == 0
    ensures r.castAmount == 0 && r.inFavorAmount == 0
    ensures r.clock == clock && r.viableAmount == viableAmount
    ensures r.proposals == [] && r.votes == []
  {
    Referendum(clock, Issued, viableAmount, 0, 0, [], [])
  }

  /** Number of proposals in a list whose `implemented` flag is set. */
  function CountImplemented(ps: seq<Proposal>): (n: nat)
    ensures n <= |ps|
    ensures n == |ps| <==> forall i :: 0 <= i < |ps| ==> ps[i].implemented
    ensures n == 0 <==> forall i :: 0 <= i < |ps| ==> !ps[i].implemented
  {
    if |ps| == 0 then 0
    else (if ps[0].implemented then 1 else 0) + CountImplemented(ps[1..])
  }

  /** `amount_implemented`: how many attached proposals are implemented;
      never more than are attached, and as many exactly when all are. */
  function AmountImplemented(r: Referendum): (n: nat)
    ensures n <= |r.proposals|
    ensures n == |r.proposals| <==> forall i :: 0 <= i < |r.proposals| ==> r.proposals[i].implemented
  {
    CountImplemented(r.proposals)
  }

  /** `proposal_amount`: how many proposals are attached, which bounds the
      implemented ones and equals their number exactly when all are
      implemented. */
  function ProposalAmount(r: Referendum): (n: nat)
    ensures n == |r.proposals|
    ensures AmountImplemented(r) <= n
    ensures AmountImplemented(r) == n <==> forall i :: 0 <= i < |r.proposals| ==> r.proposals[i].implemented
  {
    |r.proposals|
  }

  lemma {:induction false} CountImplementedAppend(a: seq<Proposal>, b: seq<Proposal>)
    ensures CountImplemented(a + b) == CountImplemented(a) + CountImplemented(b)
    decreases |a|
  {
    if |a| == 0 {
      assert a + b == b;
    } else {
      assert (a + b)[0] == a[0];
      assert (a + b)[1..] == a[1..] + b;
      CountImplementedAppend(a[1..], b);
    }
  }

  /** The positions of the implemented proposals. */
  function ImplementedPositions(ps: seq<Proposal>): set<nat> {
    set i: nat | i < |ps| && ps[i].implemented
  }

  /** `amount_implemented` counts exactly the positions of implemented
      proposals, the set `filter_by(implemented=True)` selects. */
  lemma {:induction false} CountImplementedIsFilterSize(ps: seq<Proposal>)
    ensures CountImplemented(ps) == |ImplementedPositions(ps)|
    decreases |ps|
  {
    if |ps| > 0 {
      var init := ps[..|ps| - 1];
      var last := ps[|ps| - 1];
      assert ps == init + [last];
      CountImplementedAppend(init, [last]);
      CountImplementedIsFilterSize(init);
      var before := ImplementedPositions(init);
      if last.implemented {
        assert ImplementedPositions(ps) == before + {|ps| - 1};
        assert |ps| - 1 !in before;
      } else {
        assert ImplementedPositions(ps) == before;
      }
    }
  }

  /** Attaching a proposal appends it to the proposal list and changes
      nothing else: `proposal_amount` rises by one, and
      `amount_implemented` by one exactly when the proposal is implemented. */
  function AttachProposal(r: Referendum, p: Proposal): (r': Referendum)
    ensures ProposalAmount(r') == ProposalAmount(r) + 1
    ensures AmountImplemented(r') == AmountImplemented(r) + (if p.implemented then 1 else 0)
    ensures r'.proposals[..|r.proposals|] == r.proposals && r'.proposals[|r.proposals|] == p
    ensures r'.status == r.status && r'.castAmount == r.castAmount && r'.inFavorAmount == r.inFavorAmount
    ensures r'.clock == r.clock && r'.viableAmount == r.viableAmount && r'.votes == r.votes
  {
    CountImplementedAppend(r.proposals, [p]);
    r.(proposals := r.proposals + [p])
  }

  /** The relation the column comments describe and the code never checks:
      no more votes in favour than cast, and no more cast than are viable. */
  predicate CountersWellFormed(r: Referendum) {
    0 <= r.inFavorAmount <= r.castAmount <= r.viableAmount
  }

  /** A new referendum with a non-negative pool of viable votes satisfies it. */
  lemma NewReferendumWellFormed(clock: int, viableAmount: int)
    ensures CountersWellFormed(NewReferendum(clock, viableAmount)) <==> viableAmount >= 0
  {
  }
}

=== FILE: wrappers.dfy ===
/** Failure-compatible result types shared by the models of the ledger and of
    Idea membership. A Python exception raised by the source becomes a
    `Failure` carrying an error value here. */
module Wrappers {

  datatype Option<+T> = None | Some(value: T)

  datatype Result<+R, +E> = Success(value: R) | Failure(error: E) {

    predicate IsFailure() {
      Failure?
    }

    function PropagateFailure<U>(): Result<U, E>
      requires Failure?
    {
      Failure(error)
    }

    function Extract(): R
      requires Success?
    {
      value
    }
  }
}
